=== FILE: README.md ===
# Lumière cinema selection — a Dafny model of the suggestion core

Lumière suggests one well-rated film or TV series at random. The user picks
filters: the content type, genres, a year range and an original language. The
app asks The Movie Database (TMDb) for a page of matching titles and shows one
of them on a card.

This project models that core as pure functions over immutable data and proves
what it promises. The model covers:

- **The TMDb client.**
  - The API-key slot.
  - The request builder, which puts the credential and the `pt-BR` locale
    first, then every caller parameter whose value is not `undefined`, `null`
    or `''`, in the object's insertion order.
  - The genre request.
  - The discover request: four fixed parameters, then the optional genre
    list, year bounds and language.
  - The normalisation of results, where `title || name` becomes `title`.
  - The random suggestion: one random page from 1 to 3, then one random item
    of that page. It yields nothing whenever anything fails.
- **The application shell.**
  - The genre catalogue: movie genres then TV genres, with the first
    occurrence of each id kept.
  - The current filters, which a filter change replaces and which clear the
    display.
  - The outcome of asking for a suggestion.
- **The filter panel.** Every single-field handler sets one field and emits
  the whole filter record; reset restores all five fields and emits the
  cleared record.
- **The suggestion card's derived values.**
  - At most three genre labels, resolved through the catalogue.
  - At most two creators, with production companies as the fallback.
  - The TMDb page link.

Modules follow the source files:

| module | what it models |
|---|---|
| `Tmdb` (`tmdb.dfy`) | `src/services/tmdb.ts` |
| `LumiereApp` (`lumiere_app.dfy`) | the genre merge and handlers of `src/components/LumiereApp.tsx` |
| `FilterPanel` (`filter_panel.dfy`) | the handlers of `src/components/FilterPanel.tsx` |
| `ContentCard` (`content_card.dfy`) | the derived values of `src/components/ContentCard.tsx` |

Four supporting modules carry the JavaScript semantics the service relies on:

| module | what it carries |
|---|---|
| `QueryParams` | A JavaScript object used as an insertion-ordered record; `params[key] = value`; the "not undefined, null or empty" filter |
| `Decimal` | `Number.prototype.toString` on integral numbers and `join(',')`, each with a parser that reads it back |
| `GenreSearch` | `findIndex` and `find` over a genre list by id |
| `Outcomes` | `Option` and `Result` |

Modelling choices:

- **The remote catalogue** is a total function `server: Request -> Reply`.
  `fetch`, a non-2xx status and a body that cannot be read become the
  `Error` cases of a `Result`. The request itself is a value: base URL plus
  endpoint, and the ordered list of query pairs.
- **`Math.random()`** is a parameter. Each call becomes a `Draw(num, den)`
  with `num < den`, standing for the rational `num / den` in [0, 1), and
  `Math.floor(u * n)` becomes `num * n / den`.
- **The global `window.TMDB_API_KEY`** is a `KeySlot` passed explicitly.
- **React state** is an immutable record. Each handler maps the current state
  to the next one and to the toast it raises.
- **One page, one item.** There is no suggestion pool, cache, shuffle or
  history of shown titles: each request draws one page and one item of it
  (src/services/tmdb.ts:168-179).
- **The two initial filter states disagree.** The shell starts with language
  `'en'` (plus a `minRating: 7` that nothing reads). The filter panel starts
  with language `''`. Until the user touches the panel, the shell therefore
  asks for English-language titles while the panel shows no language
  selected. The model keeps both values as written, `LumiereApp.Initial` and
  `FilterPanel.Cleared`, and `LumiereApp.InitialLanguageDisagrees` states the
  consequence.
- **The shell's error toast never fires.** `getRandomSuggestion` turns every
  failure into `null`, so `handleGetSuggestion`'s own error branch cannot be
  reached. `LumiereApp.HandleGetSuggestion` states that only the
  "new suggestion" and "nothing found" outcomes occur.

## Model

| member | source | states |
|---|---|---|
| Decimal.ParseIntToString | src/services/tmdb.ts:94 | the decimal text a numeric parameter value is rendered as reads back as the same integer |
| Decimal.IntToStringInjective | src/services/tmdb.ts:94 | distinct integers render as distinct query text |
| Decimal.ParseJoinIds | src/services/tmdb.ts:125-127 | the genre list joined with commas, split at commas and read as numbers, gives back the same ids in the same order |
| Decimal.JoinIdsEmpty | src/services/tmdb.ts:125-127 | the joined genre text is empty exactly when no genre is selected, so a selected list is never dropped by the empty-value filter |
| QueryParams.LookupFinds | src/services/tmdb.ts:118-147 | reading a key of the parameter record finds something exactly when the key is present, and what it finds is stored under that key |
| QueryParams.AssignLookup | src/services/tmdb.ts:125-147 | after `params[key] = value` the key holds the new value and every other key holds what it held before |
| QueryParams.AssignFresh | src/services/tmdb.ts:125-147 | assigning a key the record does not hold appends the entry after all existing ones |
| QueryParams.LookupDistinct | src/services/tmdb.ts:118-147 | in a record whose keys are distinct, every entry is what reading its key finds |
| QueryParams.KeepRenderedMembers | src/services/tmdb.ts:92-96 | every parameter whose value is not undefined, null or empty reaches the query with its rendered value, and every query pair comes from such a parameter |
| QueryParams.KeepRenderedAppend | src/services/tmdb.ts:92-96 | filtering the parameters commutes with concatenation, so kept parameters keep their relative order |
| QueryParams.KeepRenderedAllKept | src/services/tmdb.ts:92-96 | when no value is dropped, the query pairs line up one for one with the record's entries |
| QueryParams.KeepRenderedDropsEmpty | src/services/tmdb.ts:93 | an undefined, null or empty-string value contributes no query pair, wherever it sits |
| Decimal.IntToString | src/services/tmdb.ts:94 | the text `toString()` gives an integral number: never empty and without a comma (its inverse is `ParseIntToString`) |
| Decimal.JoinIds | src/services/tmdb.ts:126 | `genres.join(',')`: the first id's text starts the result (its inverse is `ParseJoinIds`) |
| QueryParams.Kept | src/services/tmdb.ts:93 | the test a parameter value must pass to reach the query: not undefined, not null and not the empty string |
| QueryParams.Render | src/services/tmdb.ts:94 | `value.toString()` of a kept value, which is never empty |
| QueryParams.KeepRendered | src/services/tmdb.ts:92-96 | the query pairs appended for a parameter record, never more than its entries (characterised by `KeepRenderedMembers` and `KeepRenderedAppend`) |
| QueryParams.Assign | src/services/tmdb.ts:125-147 | `params[key] = value`: the keys stay as they were when the key is present, and the key is appended otherwise (values by `AssignLookup`) |
| Tmdb.GetTmdbApiKey | src/services/tmdb.ts:12-14 | an unset slot reads as the empty string, and a non-empty result is the stored key |
| Tmdb.FixedParams | src/services/tmdb.ts:118-123 | the four entries every discover query starts with, under distinct keys and none of them dropped by the empty-value filter |
| Tmdb.DateKey | src/services/tmdb.ts:129-143 | the key a year bound is written under: `primary_release_date` for movies, `first_air_date` otherwise, with `.gte` or `.lte` (its properties are `DateKeysDistinct`, `TableLowerBound` and `TableUpperBound`) |
| Tmdb.DiscoverParams | src/services/tmdb.ts:118-147 | the `params` record `discoverContent` builds, one assignment per source statement (checked against the reference table by `DiscoverLookup`) |
| LumiereApp.KeepFirstFrom | src/components/LumiereApp.tsx:43-45 | the `filter` keeping each entry whose index is the `findIndex` of its id, never longer than its input |
| LumiereApp.MergeGenres | src/components/LumiereApp.tsx:42-45 | the merged catalogue, never longer than the two lists together and empty only when both are |
| ContentCard.Shown | src/components/ContentCard.tsx:36 | the `filter(Boolean)` test on a resolved name: present and non-empty |
| GenreSearch.FindIndex | src/components/LumiereApp.tsx:44 | the result is the first position holding the id, or -1 exactly when no entry holds it |
| Tmdb.SetTmdbApiKey | src/services/tmdb.ts:7-14 | the key read back after setting it is the key that was set |
| Tmdb.IsApiKeySet | src/services/tmdb.ts:12-18 | a key counts as set exactly when one was stored and it is non-empty |
| Tmdb.BuildRequest | src/services/tmdb.ts:82-96 | without a key the request fails with the missing-key error; with one, the URL is the base URL plus the endpoint and the query is the key, then the `pt-BR` locale, then the kept parameters |
| Tmdb.Fetch | src/services/tmdb.ts:98-104 | a response is accepted exactly when it arrives with a 2xx status and a readable body, and the accepted body is the one the server sent |
| Tmdb.MakeRequest | src/services/tmdb.ts:82-105 | succeeds exactly when a key is set and the server accepts the built request; a missing key is reported as such |
| Tmdb.MissingKeyNeedsNoCatalog | src/services/tmdb.ts:83-86 | without a key the outcome is a failure and is the same whatever the server would answer |
| Tmdb.GetGenres | src/services/tmdb.ts:107-110 | the genre request succeeds exactly when the underlying request does, and yields the body's `genres` field |
| Tmdb.GenresQuery | src/services/tmdb.ts:107-110 | the genre request carries only the key and the locale |
| Tmdb.Normalize | src/services/tmdb.ts:152-157 | id, genre ids, both dates, overview, original language, creators and production companies are carried over, and the title is non-empty exactly when the record's title or name is |
| Tmdb.NormalizeAll | src/services/tmdb.ts:152 | normalising a page keeps its length and normalises each entry in place |
| Tmdb.DiscoverContent | src/services/tmdb.ts:149-162 | succeeds exactly when the discover request succeeds with a result list; its results are that list normalised, and the page counts are copied |
| Tmdb.Scale | src/services/tmdb.ts:169 | a draw in [0, 1) scaled by a positive n gives an index below n |
| Tmdb.ScaleBound | src/services/tmdb.ts:178 | `floor(u * n)` stays below n for every draw in [0, 1) |
| Tmdb.SuggestionPage | src/services/tmdb.ts:168-169 | the random page lies between 1 and 3 |
| Tmdb.GetRandomSuggestion | src/services/tmdb.ts:165-184 | a suggestion exists exactly when the discover request for the drawn page succeeds with a non-empty page; it is an item of that page; without a key there is none |
| Tmdb.AssignIfFresh | src/services/tmdb.ts:125-147 | a conditional assignment of a key not yet present appends the entry when the condition holds and changes nothing otherwise |
| Tmdb.AssignFourFresh | src/services/tmdb.ts:125-147 | four conditional assignments of distinct fresh keys append their entries in assignment order |
| Tmdb.DiscoverParamsLayout | src/services/tmdb.ts:118-147 | the discover record is the four fixed entries, then the genre list, lower bound, upper bound and language, each present only when its filter is set |
| Tmdb.KeepRenderedOptional | src/services/tmdb.ts:93-94 | an optional entry with non-empty text reaches the query unchanged |
| Tmdb.FixedParamsRendered | src/services/tmdb.ts:118-123 | the fixed entries render as the page number, `vote_average.gte=7`, `vote_count.gte=100` and `sort_by=vote_average.desc` |
| Tmdb.DiscoverRendered | src/services/tmdb.ts:92-96 | no discover parameter is ever dropped, and the query pairs follow the order in which `discoverContent` assigns them |
| Tmdb.BuildRequestShape | src/services/tmdb.ts:88-96 | a request built with a key is the base URL plus the endpoint, with the key and the locale ahead of the rendered parameters |
| Tmdb.DiscoverQuery | src/services/tmdb.ts:112-149 | the complete discover request: URL, key, locale, page, the two quality thresholds, the sort order, then the optional filters |
| Tmdb.AssignIfLookup | src/services/tmdb.ts:125-147 | a conditional assignment sets the key when the condition holds and leaves every other lookup unchanged |
| Tmdb.FixedLookup | src/services/tmdb.ts:118-123 | the fixed record holds exactly the page, the two thresholds and the sort order |
| Tmdb.DateKeysDistinct | src/services/tmdb.ts:129-143 | the lower and upper date keys of a content type differ, and neither is one of the other six keys `discoverContent` writes |
| Tmdb.DiscoverLookup | src/services/tmdb.ts:118-147 | on every key, the discover record agrees with an independent reference table of the parameters |
| Tmdb.TableLowerBound | src/services/tmdb.ts:129-135 | in the reference table, the lower year bound sits under the release-date key for movies and the first-air-date key otherwise, only when set |
| Tmdb.TableUpperBound | src/services/tmdb.ts:137-143 | in the reference table, the upper year bound sits under the release-date key for movies and the first-air-date key otherwise, only when set |
| Tmdb.DiscoverDateBounds | src/services/tmdb.ts:129-143 | a non-empty year bound becomes `YYYY-01-01` or `YYYY-12-31` under the movie keys for movies and the TV keys otherwise; an empty one sets no key |
| Tmdb.DiscoverGenresRoundTrip | src/services/tmdb.ts:125-127 | the genre parameter holds the comma-joined ids, and that text reads back as the selected ids |
| Tmdb.NormalizeMovieTitle | src/services/tmdb.ts:154 | a record with a non-empty title keeps it |
| Tmdb.NormalizeTvTitle | src/services/tmdb.ts:154 | a record without a usable title takes its name |
| Tmdb.NormalizeKeepsIds | src/services/tmdb.ts:152-157 | normalising a page keeps its order, each record's id and each record's genre ids |
| Tmdb.ScaleExact | src/services/tmdb.ts:169 | the draw i/n scales to exactly i |
| Tmdb.EveryPageReachable | src/services/tmdb.ts:168-169 | each page from 1 to 3 is the suggestion page for some draw |
| Tmdb.EveryResultReachable | src/services/tmdb.ts:178-179 | each item of a non-empty page is the suggestion for some index draw |
| Tmdb.FailedRequestGivesNone | src/services/tmdb.ts:180-183 | a failed discover request yields no suggestion whatever the draws |
| LumiereApp.KeepFirstFromOrigin | src/components/LumiereApp.tsx:43-45 | every entry the filter keeps is the first entry of the list with its id |
| LumiereApp.KeepFirstFromOrdered | src/components/LumiereApp.tsx:43-45 | kept entries appear in the order of their first positions |
| LumiereApp.KeepFirstFromComplete | src/components/LumiereApp.tsx:43-45 | every first occurrence of an id is kept |
| LumiereApp.MergeGenresFirstOccurrences | src/components/LumiereApp.tsx:42-45 | the merged catalogue holds exactly one first occurrence per id of movie-then-TV genres, in first-occurrence order |
| LumiereApp.MergeGenresDistinct | src/components/LumiereApp.tsx:42-45 | no genre id appears twice in the merged catalogue |
| LumiereApp.FindIndexPrefix | src/components/LumiereApp.tsx:42-44 | an id found among the movie genres is found at the same position in the concatenation |
| LumiereApp.MergeGenresPrefersMovie | src/components/LumiereApp.tsx:42-45 | for an id the movie list holds, the catalogue's only entry with that id is the movie list's first one |
| LumiereApp.LoadGenres | src/components/LumiereApp.tsx:32-59 | the catalogue is replaced by the merge of the movie and TV genre lists, which has no duplicate id, exactly when both genre requests succeed and both bodies carry a `genres` list; otherwise the state is unchanged and the error toast is raised |
| LumiereApp.HandleFiltersChange | src/components/LumiereApp.tsx:61-65 | the new filters are adopted, the display is cleared, and the catalogue is untouched |
| LumiereApp.ApplySuggestion | src/components/LumiereApp.tsx:72-84 | a suggestion replaces the displayed content and is announced by title; none leaves the state as it was and raises the "nothing found" toast |
| LumiereApp.HandleGetSuggestion | src/components/LumiereApp.tsx:67-95 | the displayed content becomes exactly the suggestion `getRandomSuggestion` returned, an item of the discover page for the current filters, or the state is unchanged and "nothing found" is raised; filters and catalogue never change |
| LumiereApp.FiltersChangeLastWins | src/components/LumiereApp.tsx:61-65 | two filter changes in a row leave the state the last one alone would |
| LumiereApp.FiltersChangeThenNothing | src/components/LumiereApp.tsx:61-84 | after a filter change, a request issued under the new filters that finds nothing leaves the display empty |
| LumiereApp.InitialLanguageDisagrees | src/components/LumiereApp.tsx:23-30 | the shell's first discover query asks for `with_original_language=en`, while the cleared filter panel asks for no language |
| FilterPanel.UpdateFilters | src/components/FilterPanel.tsx:62-70 | the emitted record carries exactly the five values given |
| FilterPanel.RemoveAll | src/components/FilterPanel.tsx:56 | the id is gone, and every other id occurs as often as before |
| FilterPanel.ToggleGenre | src/components/FilterPanel.tsx:53-56 | checking appends the id at the end; unchecking removes every copy and keeps the rest |
| FilterPanel.HandleGenreChange | src/components/FilterPanel.tsx:53-60 | only the genre selection changes, and it becomes exactly the toggled selection |
| FilterPanel.UncheckAppend | src/components/FilterPanel.tsx:56 | unchecking distributes over concatenation, so the genres left selected keep their relative order |
| FilterPanel.HandleReset | src/components/FilterPanel.tsx:72-79 | the emitted record is movies, no genres, no years and no language |
| FilterPanel.HandleContentTypeChange | src/components/FilterPanel.tsx:81-84 | only the content type changes |
| FilterPanel.HandleYearFromChange | src/components/FilterPanel.tsx:86-89 | only the lower year changes |
| FilterPanel.HandleYearToChange | src/components/FilterPanel.tsx:91-94 | only the upper year changes |
| FilterPanel.HandleLanguageChange | src/components/FilterPanel.tsx:96-99 | only the language changes |
| FilterPanel.RemoveAllAppend | src/components/FilterPanel.tsx:56 | removal distributes over concatenation, so the remaining ids keep their relative order |
| FilterPanel.RemoveAllAbsent | src/components/FilterPanel.tsx:56 | removing an id that is not selected changes nothing |
| FilterPanel.UncheckUndoesCheck | src/components/FilterPanel.tsx:53-56 | unchecking a genre right after checking it restores the selection |
| FilterPanel.UncheckTwice | src/components/FilterPanel.tsx:53-56 | unchecking is idempotent |
| FilterPanel.ResetForgets | src/components/FilterPanel.tsx:72-79 | a reset emits the same record whatever the state, namely the panel's initial state |
| FilterPanel.YearHandlersCommute | src/components/FilterPanel.tsx:86-94 | setting the lower and the upper year in either order gives the same record |
| ContentCard.GenreName | src/components/ContentCard.tsx:35 | a name is found exactly when some catalogue entry has the id, and it is the first such entry's name |
| ContentCard.ResolvedNames | src/components/ContentCard.tsx:34-36 | at most one label per id, and no label is empty |
| ContentCard.ContentGenres | src/components/ContentCard.tsx:34-37 | the labels are the first min(3, n) non-empty resolved names, in id order |
| ContentCard.Creators | src/components/ContentCard.tsx:42-43 | at most two credits: a prefix of `created_by` when present (even empty), else a prefix of the companies, else none |
| ContentCard.TmdbUrl | src/components/ContentCard.tsx:39 | the link is the TMDb site followed by the content type, a slash and the id |
| ContentCard.ResolvedNamesAppend | src/components/ContentCard.tsx:34-36 | label resolution distributes over concatenation, so labels follow the item's id order |
| ContentCard.SkipsUnshownId | src/components/ContentCard.tsx:34-37 | an id with no usable name takes no label slot |
| ContentCard.KeepsShownId | src/components/ContentCard.tsx:34-37 | a resolvable id contributes its catalogue name ahead of at most two labels of the later ids |
| ContentCard.LabelsComeFromIds | src/components/ContentCard.tsx:34-36 | every label is the catalogue name of one of the item's genre ids |
| ContentCard.EmptyCreatorsHideCompanies | src/components/ContentCard.tsx:42-43 | an empty `created_by` list hides the production companies |
| ContentCard.TmdbUrlRoundTrip | src/components/ContentCard.tsx:39 | the id at the end of the link reads back as the item's id |
| ContentCard.TmdbUrlInjective | src/components/ContentCard.tsx:39 | distinct items of one content type get distinct links |

## Left out

- HTTP, `fetch`, `URL` and JSON parsing are not modelled. The server is a function from request values to replies; URL percent-encoding of query values is not modelled.
- Floating-point fields are carried by no model type: `vote_average`, `vote_count` and `popularity`. None of the core's decisions reads them. The threshold `7.0` is the integer 7, whose text `String(7.0)` is `"7"`.
- Tmdb.Scale: `Math.random()` is a rational draw `num / den` in [0, 1), not an IEEE double. So the model does not reproduce the rounding of `Math.floor(Math.random() * n)` near 1.
- Decimal.IntToString: renders only integral numbers. Genre ids, pages and the vote thresholds are integral in this core; exponent notation for very large numbers is not modelled.
- Tmdb.GetRandomSuggestion: the `catch` of `getRandomSuggestion` also absorbs runtime exceptions that have no counterpart here, such as a `results` field that is not an array. The model covers a missing key, a network failure, a non-2xx status, an unreadable body and a missing `results` list.
- `console.error` logging, the `isLoading` flag, the toasts' Portuguese wording and all JSX rendering are left out. The toast kind is modelled as a `Notice`.
- Image URLs, the YouTube trailer link, the year shown on the card (`new Date(...).getFullYear()`), `poster_path`, `backdrop_path` and the raw `name` field that the spread in `discoverContent` keeps on each normalised item are left out. They are display-only, and nothing in the core reads `name` after normalisation.
- `Header.tsx`, `ContentTypeSelector.tsx`, `AdvancedFilters.tsx` and `ApiKeySetup.tsx` are not part of this model. They are presentational or unused by the suggestion flow.
- The panel's hard-coded genre and language option lists are left out. The model accepts any id and any language code.
- `Promise.all` concurrency in the genre load is left out. Both results are taken together, and either failure aborts the merge, as in `loadGenres`.
- Handlers are atomic in the model. In the program `handleGetSuggestion` is asynchronous: it captures the filters when it starts, and the panel's controls stay enabled while it waits. A filter change during that wait clears the display, and the older request may then still show its result under the new content type. This interleaving is not modelled.
- The default argument `page = 1` of `discoverContent` is not modelled. Its only caller always passes the drawn page, so every modelled call takes the page explicitly.
- Object keys are assumed not to be integer-like. JavaScript enumerates such keys first, and no key of this core is integer-like.

=== FILE: content_card.dfy ===
/** The values the suggestion card derives from an item before rendering:
    the genre labels, the credited creators and the link to the item's TMDb
    page. */
module ContentCard {
  import opened Outcomes
  import opened Tmdb
  import opened GenreSearch
  import Decimal

  const MaxGenreLabels: nat := 3
  const MaxCreators: nat := 2
  const TmdbSite: string := "https://www.themoviedb.org/"

  function Min(a: nat, b: nat): nat {
    if a < b then a else b
  }

  /** `genres.find(g => g.id === id)?.name`. */
  function GenreName(catalogue: seq<Genre>, id: int): (n: Option<string>)
    ensures n.Some? <==> exists k :: 0 <= k < |catalogue| && catalogue[k].id == id
    ensures n.Some? ==> n.value == catalogue[FindIndex(catalogue, id)].name
  {
    var k := FindIndex(catalogue, id);
    if k < 0 then None else Some(catalogue[k].name)
  }

  /** A name `.filter(Boolean)` keeps: present and not empty. */
  predicate Shown(n: Option<string>) {
    n.Some? && n.value != ""
  }

  /** The labels before truncation, in `genre_ids` order. */
  function ResolvedNames(ids: seq<int>, catalogue: seq<Genre>): (names: seq<string>)
    ensures |names| <= |ids|
    ensures forall j :: 0 <= j < |names| ==> names[j] != ""
    decreases |ids|
  {
    if |ids| == 0 then []
    else
      var n := GenreName(catalogue, ids[0]);
      (if Shown(n) then [n.value] else []) + ResolvedNames(ids[1..], catalogue)
  }

  /** `contentGenres`: resolve, drop the unresolved, keep the first three. */
  function ContentGenres(ids: seq<int>, catalogue: seq<Genre>): (labels: seq<string>)
    ensures |labels| <= MaxGenreLabels
    ensures |labels| == Min(MaxGenreLabels, |ResolvedNames(ids, catalogue)|)
    ensures labels <= ResolvedNames(ids, catalogue)
    ensures forall j :: 0 <= j < |labels| ==> labels[j] != ""
  {
    var names := ResolvedNames(ids, catalogue);
    names[..Min(MaxGenreLabels, |names|)]
  }

  /** `created_by?.slice(0, 2) || production_companies?.slice(0, 2) || []`.
      An empty `created_by` array is truthy, so it wins over the companies. */
  function Creators(createdBy: Option<seq<Credit>>, companies: Option<seq<Credit>>): (r: seq<Credit>)
    ensures |r| <= MaxCreators
    ensures createdBy.Some? ==> r <= createdBy.value && |r| == Min(MaxCreators, |createdBy.value|)
    ensures createdBy.None? && companies.Some? ==> r <= companies.value && |r| == Min(MaxCreators, |companies.value|)
    ensures createdBy.None? && companies.None? ==> r == []
  {
    match createdBy
    case Some(c) => c[..Min(MaxCreators, |c|)]
    case None =>
      match companies
      case Some(p) => p[..Min(MaxCreators, |p|)]
      case None => []
  }

  /** `https://www.themoviedb.org/${contentType}/${content.id}`. */
  function TmdbUrl(contentType: ContentType, id: int): (url: string)
    ensures TmdbSite <= url
    ensures url[|TmdbSite|..] == contentType.Name() + "/" + Decimal.IntToString(id)
  {
    TmdbSite + contentType.Name() + "/" + Decimal.IntToString(id)
  }

  // ---------------------------------------------------------------------
  // Properties

  /** Resolution distributes over concatenation: labels follow the order of
      `genre_ids`, not the order of the catalogue. */
  lemma {:induction false} ResolvedNamesAppend(a: seq<int>, b: seq<int>, catalogue: seq<Genre>)
    ensures ResolvedNames(a + b, catalogue) == ResolvedNames(a, catalogue) + ResolvedNames(b, catalogue)
    decreases |a|
  {
    if |a| == 0 {
      assert a + b == b;
    } else {
      assert (a + b)[0] == a[0];
      assert (a + b)[1..] == a[1..] + b;
      ResolvedNamesAppend(a[1..], b, catalogue);
    }
  }

  /** An id with no catalogue entry, or whose entry has an empty name, is
      dropped before the cut to three: it takes no label slot. */
  lemma SkipsUnshownId(id: int, ids: seq<int>, catalogue: seq<Genre>)
    requires !Shown(GenreName(catalogue, id))
    ensures ContentGenres([id] + ids, catalogue) == ContentGenres(ids, catalogue)
  {
    assert ([id] + ids)[1..] == ids;
  }

  /** A resolvable id contributes the name of the first catalogue entry with
      that id, ahead of the labels of the ids after it. */
  lemma KeepsShownId(id: int, ids: seq<int>, catalogue: seq<Genre>)
    requires Shown(GenreName(catalogue, id))
    ensures ContentGenres([id] + ids, catalogue) ==
      [catalogue[FindIndex(catalogue, id)].name] + ContentGenres(ids, catalogue)[..Min(MaxGenreLabels - 1, |ContentGenres(ids, catalogue)|)]
  {
    assert ([id] + ids)[1..] == ids;
    var rest := ResolvedNames(ids, catalogue);
    var n := catalogue[FindIndex(catalogue, id)].name;
    assert ResolvedNames([id] + ids, catalogue) == [n] + rest;
    assert ([n] + rest)[..Min(MaxGenreLabels, 1 + |rest|)] == [n] + rest[..Min(MaxGenreLabels - 1, |rest|)];
  }

  /** Every label is the catalogue name of one of the item's genre ids. */
  lemma {:induction false} LabelsComeFromIds(ids: seq<int>, catalogue: seq<Genre>)
    ensures forall j :: 0 <= j < |ResolvedNames(ids, catalogue)| ==>
      exists k :: 0 <= k < |ids| && GenreName(catalogue, ids[k]) == Some(ResolvedNames(ids, catalogue)[j])
    decreases |ids|
  {
    if |ids| > 0 {
      LabelsComeFromIds(ids[1..], catalogue);
      var head := if Shown(GenreName(catalogue, ids[0])) then [GenreName(catalogue, ids[0]).value] else [];
      var tail := ResolvedNames(ids[1..], catalogue);
      assert ResolvedNames(ids, catalogue) == head + tail;
      forall j | 0 <= j < |head + tail|
        ensures exists k :: 0 <= k < |ids| && GenreName(catalogue, ids[k]) == Some((head + tail)[j])
      {
        if j < |head| {
          assert GenreName(catalogue, ids[0]) == Some((head + tail)[j]);
        } else {
          var k :| 0 <= k < |ids[1..]| && GenreName(catalogue, ids[1..][k]) == Some(tail[j - |head|]);
          assert ids[1..][k] == ids[k + 1];
        }
      }
    } else {
      assert ResolvedNames(ids, catalogue) == [];
    }
  }

  /** An empty `created_by` list hides the production companies. */
  lemma EmptyCreatorsHideCompanies(companies: Option<seq<Credit>>)
    ensures Creators(Some([]), companies) == []
  {
  }

  /** The id at the end of the link reads back as the item's id, so distinct
      items of one content type get distinct links. */
  lemma TmdbUrlRoundTrip(contentType: ContentType, id: int)
    ensures Decimal.ParseInt(TmdbUrl(contentType, id)[|TmdbSite| + |contentType.Name()| + 1..]) == Some(id)
  {
    var url := TmdbUrl(contentType, id);
    assert url[|TmdbSite| + |contentType.Name()| + 1..] == Decimal.IntToString(id);
    Decimal.ParseIntToString(id);
  }

  lemma TmdbUrlInjective(contentType: ContentType, a: int, b: int)
    requires TmdbUrl(contentType, a) == TmdbUrl(contentType, b)
    ensures a == b
  {
    TmdbUrlRoundTrip(contentType, a);
    TmdbUrlRoundTrip(contentType, b);
  }
}

=== FILE: decimal.dfy ===
/** Decimal text of integers, as JavaScript's `Number.prototype.toString`
    writes an integral number, and `Array.prototype.join(',')` over a list of
    integers; with the parsers that read them back. */
module Decimal {
  import opened Outcomes

  function DigitChar(d: nat): (c: char)
    requires d < 10
    ensures '0' <= c <= '9'
  {
    ('0' as int + d) as char
  }

  function DigitValue(c: char): (d: nat)
    requires '0' <= c <= '9'
    ensures d < 10
    ensures DigitChar(d) == c
  {
    c as int - '0' as int
  }

  /** A non-empty run of ASCII digits. */
  predicate IsDigits(s: string) {
    |s| > 0 && forall i :: 0 <= i < |s| ==> '0' <= s[i] <= '9'
  }

  /** Decimal digits of `n`, most significant first, without leading zeros. */
  function NatToString(n: nat): (s: string)
    ensures IsDigits(s)
    ensures |s| > 1 ==> s[0] != '0'
    decreases n
  {
    if n < 10 then [DigitChar(n)] else NatToString(n / 10) + [DigitChar(n % 10)]
  }

  /** What `String(i)` yields for an integral number `i`. */
  function IntToString(i: int): (s: string)
    ensures |s| > 0
    ensures ',' !in s
  {
    if i < 0 then "-" + NatToString(-i) else NatToString(i)
  }

  /** The value of a run of digits, read most significant first. */
  function ParseDigits(s: string): nat
    requires IsDigits(s)
    decreases |s|
  {
    if |s| == 1 then DigitValue(s[0])
    else 10 * ParseDigits(s[..|s| - 1]) + DigitValue(s[|s| - 1])
  }

  /** Reads an optionally negative decimal integer; `None` for anything else. */
  function ParseInt(s: string): Option<int> {
    if |s| > 1 && s[0] == '-' && IsDigits(s[1..]) then Some(0 - ParseDigits(s[1..]) as int)
    else if IsDigits(s) then Some(ParseDigits(s))
    else None
  }

  lemma {:induction false} ParseNatToString(n: nat)
    ensures ParseDigits(NatToString(n)) == n
    decreases n
  {
    if n >= 10 {
      var s := NatToString(n);
      assert s[..|s| - 1] == NatToString(n / 10);
      ParseNatToString(n / 10);
    }
  }

  /** Decimal rendering of an integer is read back as that integer. */
  lemma ParseIntToString(i: int)
    ensures ParseInt(IntToString(i)) == Some(i)
  {
    var s := IntToString(i);
    if i < 0 {
      assert s[1..] == NatToString(-i);
      ParseNatToString(-i);
    } else {
      ParseNatToString(i);
    }
  }

  /** Distinct integers have distinct decimal renderings. */
  lemma IntToStringInjective(i: int, j: int)
    requires IntToString(i) == IntToString(j)
    ensures i == j
  {
    ParseIntToString(i);
    ParseIntToString(j);
  }

  /** `ids.join(',')` for a list of integral numbers. */
  function JoinIds(ids: seq<int>): (s: string)
    ensures |ids| > 0 ==> IntToString(ids[0]) <= s
    decreases |ids|
  {
    if |ids| == 0 then ""
    else if |ids| == 1 then IntToString(ids[0])
    else IntToString(ids[0]) + "," + JoinIds(ids[1..])
  }

  /** Position of the first comma of `s`. */
  function FirstComma(s: string): (i: nat)
    requires ',' in s
    ensures i < |s| && s[i] == ','
    ensures ',' !in s[..i]
  {
    if s[0] == ',' then 0
    else
      assert ',' in s[1..] by { var k :| 0 <= k < |s| && s[k] == ','; assert s[1..][k - 1] == ','; }
      var j := FirstComma(s[1..]);
      assert s[..j + 1] == [s[0]] + s[1..][..j];
      j + 1
  }

  /** `s.split(',')`: the pieces between commas, in order. */
  function SplitCommas(s: string): (parts: seq<string>)
    ensures |parts| > 0
    decreases |s|
  {
    if ',' in s then
      var i := FirstComma(s);
      [s[..i]] + SplitCommas(s[i + 1..])
    else [s]
  }

  /** Reads a comma-separated list of integers; `None` if any piece is not one. */
  function ParseIds(s: string): Option<seq<int>> {
    ParseAll(SplitCommas(s))
  }

  function ParseAll(parts: seq<string>): Option<seq<int>>
    decreases |parts|
  {
    if |parts| == 0 then Some([])
    else
      match (ParseInt(parts[0]), ParseAll(parts[1..]))
      case (Some(i), Some(rest)) => Some([i] + rest)
      case _ => None
  }

  lemma SplitAfterPiece(a: string, b: string)
    requires ',' !in a
    ensures SplitCommas(a + "," + b) == [a] + SplitCommas(b)
  {
    var s := a + "," + b;
    assert s[|a|] == ',';
    assert s[..|a|] == a;
    var i := FirstComma(s);
    assert i == |a|;
    assert s[i + 1..] == b;
  }

  lemma ParseAllCons(p: string, ps: seq<string>, i: int, rest: seq<int>)
    requires ParseInt(p) == Some(i) && ParseAll(ps) == Some(rest)
    ensures ParseAll([p] + ps) == Some([i] + rest)
  {
    assert ([p] + ps)[0] == p;
    assert ([p] + ps)[1..] == ps;
  }

  /** A single id reads back as itself. */
  lemma ParseJoinOne(i: int)
    ensures ParseIds(JoinIds([i])) == Some([i])
  {
    var first := IntToString(i);
    ParseIntToString(i);
    assert JoinIds([i]) == first;
    assert SplitCommas(first) == [first];
    assert ParseAll([]) == Some([]);
    ParseAllCons(first, [], i, []);
    assert [first] + [] == [first];
    assert [i] + [] == [i];
  }

  /** A piece followed by a comma and more text reads back as the piece's
      number followed by what the rest reads back as. */
  lemma ParsePieceThenRest(first: string, rest: string, ids: seq<int>)
    requires |ids| > 0
    requires ',' !in first && ParseInt(first) == Some(ids[0])
    requires ParseIds(rest) == Some(ids[1..])
    ensures ParseIds(first + "," + rest) == Some(ids)
  {
    SplitAfterPiece(first, rest);
    ParseAllCons(first, SplitCommas(rest), ids[0], ids[1..]);
    assert [ids[0]] + ids[1..] == ids;
  }

  lemma JoinIdsCons(ids: seq<int>)
    requires |ids| > 1
    ensures JoinIds(ids) == IntToString(ids[0]) + "," + JoinIds(ids[1..])
  {
  }

  /** Reading back the joined text of `ids` reduces to reading back that of
      its tail. */
  lemma ParseJoinStep(ids: seq<int>)
    requires |ids| > 1
    requires ParseIds(JoinIds(ids[1..])) == Some(ids[1..])
    ensures ParseIds(JoinIds(ids)) == Some(ids)
  {
    ParseIntToString(ids[0]);
    JoinIdsCons(ids);
    ParsePieceThenRest(IntToString(ids[0]), JoinIds(ids[1..]), ids);
  }

  /** The genre parameter's text reads back as exactly the selected ids,
      in selection order. */
  lemma {:induction false} ParseJoinIds(ids: seq<int>)
    requires |ids| > 0
    ensures ParseIds(JoinIds(ids)) == Some(ids)
    decreases |ids|
  {
    if |ids| == 1 {
      ParseJoinOne(ids[0]);
      assert [ids[0]] == ids;
    } else {
      ParseJoinIds(ids[1..]);
      ParseJoinStep(ids);
    }
  }

  /** The joined text is empty exactly when there is nothing to join. */
  lemma JoinIdsEmpty(ids: seq<int>)
    ensures JoinIds(ids) == "" <==> |ids| == 0
  {
    if |ids| == 1 {
    } else if |ids| > 1 {
      assert JoinIds(ids)[0] == IntToString(ids[0])[0];
    }
  }
}

=== FILE: filter_panel.dfy ===
/** The filter panel. Its five pieces of React state are exactly the fields
    of the `Filters` record it emits. Every single-field handler sets one
    piece and emits the record built from the new value and the other four
    current values; reset sets all five and emits the cleared record. So a
    handler is modelled as a map from the current record to the emitted one,
    which is also the panel's next state. */
module FilterPanel {
  import opened Tmdb

  /** The panel's state on first render and after a reset. */
  const Cleared: Filters := Filters(Movie, [], "", "", "")

  /** `updateFilters(type, genres, from, to, lang)`: the record passed to
      `onFiltersChange`. */
  function UpdateFilters(contentType: ContentType, genres: seq<int>, yearFrom: string, yearTo: string, language: string): (f: Filters)
    ensures f.contentType == contentType && f.genres == genres
    ensures f.yearFrom == yearFrom && f.yearTo == yearTo && f.language == language
  {
    Filters(contentType, genres, yearFrom, yearTo, language)
  }

  /** `ids.filter(x => x !== id)`. */
  function RemoveAll(ids: seq<int>, id: int): (r: seq<int>)
    ensures id !in r
    ensures |r| <= |ids|
    ensures forall x :: x != id ==> multiset(r)[x] == multiset(ids)[x]
    decreases |ids|
  {
    if |ids| == 0 then []
    else
      assert ids == [ids[0]] + ids[1..];
      (if ids[0] == id then [] else [ids[0]]) + RemoveAll(ids[1..], id)
  }

  /** The new selection computed by `handleGenreChange`. */
  function ToggleGenre(selected: seq<int>, id: int, checked: bool): (r: seq<int>)
    ensures checked ==> |r| == |selected| + 1 && r[..|selected|] == selected && r[|selected|] == id
    ensures !checked ==> id !in r && forall x :: x != id ==> multiset(r)[x] == multiset(selected)[x]
  {
    if checked then selected + [id] else RemoveAll(selected, id)
  }

  function HandleGenreChange(p: Filters, id: int, checked: bool): (q: Filters)
    ensures q.contentType == p.contentType && q.yearFrom == p.yearFrom
    ensures q.yearTo == p.yearTo && q.language == p.language
    ensures checked ==> q.genres == p.genres + [id]
    ensures !checked ==> id !in q.genres
    ensures !checked ==> forall x :: x != id ==> multiset(q.genres)[x] == multiset(p.genres)[x]
    ensures q.genres == ToggleGenre(p.genres, id, checked)
  {
    UpdateFilters(p.contentType, ToggleGenre(p.genres, id, checked), p.yearFrom, p.yearTo, p.language)
  }

  function HandleReset(p: Filters): (q: Filters)
    ensures q.contentType == Movie && q.genres == []
    ensures q.yearFrom == "" && q.yearTo == "" && q.language == ""
  {
    UpdateFilters(Movie, [], "", "", "")
  }

  function HandleContentTypeChange(p: Filters, value: ContentType): (q: Filters)
    ensures q.contentType == value
    ensures q.genres == p.genres && q.yearFrom == p.yearFrom && q.yearTo == p.yearTo && q.language == p.language
  {
    UpdateFilters(value, p.genres, p.yearFrom, p.yearTo, p.language)
  }

  function HandleYearFromChange(p: Filters, value: string): (q: Filters)
    ensures q.yearFrom == value
    ensures q.contentType == p.contentType && q.genres == p.genres && q.yearTo == p.yearTo && q.language == p.language
  {
    UpdateFilters(p.contentType, p.genres, value, p.yearTo, p.language)
  }

  function HandleYearToChange(p: Filters, value: string): (q: Filters)
    ensures q.yearTo == value
    ensures q.contentType == p.contentType && q.genres == p.genres && q.yearFrom == p.yearFrom && q.language == p.language
  {
    UpdateFilters(p.contentType, p.genres, p.yearFrom, value, p.language)
  }

  function HandleLanguageChange(p: Filters, value: string): (q: Filters)
    ensures q.language == value
    ensures q.contentType == p.contentType && q.genres == p.genres && q.yearFrom == p.yearFrom && q.yearTo == p.yearTo
  {
    UpdateFilters(p.contentType, p.genres, p.yearFrom, p.yearTo, value)
  }

  // ---------------------------------------------------------------------
  // Properties

  /** Removing an id distributes over concatenation, so the ids that remain
      keep their relative order. */
  lemma {:induction false} RemoveAllAppend(a: seq<int>, b: seq<int>, id: int)
    ensures RemoveAll(a + b, id) == RemoveAll(a, id) + RemoveAll(b, id)
    decreases |a|
  {
    if |a| == 0 {
      assert a + b == b;
    } else {
      var head := if a[0] == id then [] else [a[0]];
      assert (a + b)[0] == a[0];
      assert (a + b)[1..] == a[1..] + b;
      assert RemoveAll(a + b, id) == head + RemoveAll(a[1..] + b, id);
      assert RemoveAll(a, id) == head + RemoveAll(a[1..], id);
      RemoveAllAppend(a[1..], b, id);
      assert head + (RemoveAll(a[1..], id) + RemoveAll(b, id))
          == (head + RemoveAll(a[1..], id)) + RemoveAll(b, id);
    }
  }

  /** Unchecking distributes over concatenation: the genres left selected
      keep the relative order they had. */
  lemma UncheckAppend(a: seq<int>, b: seq<int>, id: int)
    ensures ToggleGenre(a + b, id, false) == ToggleGenre(a, id, false) + ToggleGenre(b, id, false)
  {
    RemoveAllAppend(a, b, id);
  }

  /** Removing an id that is not selected changes nothing. */
  lemma {:induction false} RemoveAllAbsent(ids: seq<int>, id: int)
    requires id !in ids
    ensures RemoveAll(ids, id) == ids
    decreases |ids|
  {
    if |ids| > 0 {
      assert id !in ids[1..];
      RemoveAllAbsent(ids[1..], id);
      assert ids == [ids[0]] + ids[1..];
    }
  }

  /** Unchecking a genre right after checking it restores the selection. */
  lemma UncheckUndoesCheck(selected: seq<int>, id: int)
    requires id !in selected
    ensures ToggleGenre(ToggleGenre(selected, id, true), id, false) == selected
  {
    RemoveAllAppend(selected, [id], id);
    RemoveAllAbsent(selected, id);
    assert RemoveAll([id], id) == [];
  }

  /** Unchecking is idempotent. */
  lemma UncheckTwice(selected: seq<int>, id: int)
    ensures ToggleGenre(ToggleGenre(selected, id, false), id, false) == ToggleGenre(selected, id, false)
  {
    RemoveAllAbsent(RemoveAll(selected, id), id);
  }

  /** A reset forgets everything: the emitted record does not depend on the
      state it started from, and it is the panel's initial state. */
  lemma ResetForgets(p: Filters, p': Filters)
    ensures HandleReset(p) == HandleReset(p') == Cleared
  {
  }

  /** The single-field handlers touch disjoint fields, so they commute. */
  lemma YearHandlersCommute(p: Filters, from: string, to: string)
    ensures HandleYearToChange(HandleYearFromChange(p, from), to) == HandleYearFromChange(HandleYearToChange(p, to), from)
  {
  }
}

=== FILE: genre_search.dfy ===
/** Searching a genre list by id, as the shell's genre merge and the card's
    label lookup both do with `Array.prototype.findIndex` and `find`. */
module GenreSearch {
  import opened Tmdb

  /** The first position of a genre list holding `id`, or -1 when there is
      none: `findIndex(g => g.id === id)`; the entry
      `find(g => g.id === id)` returns is the one at that position. */
  function FindIndex(gs: seq<Genre>, id: int): (r: int)
    ensures -1 <= r < |gs|
    ensures r >= 0 ==> gs[r].id == id && forall k :: 0 <= k < r ==> gs[k].id != id
    ensures r == -1 ==> forall k :: 0 <= k < |gs| ==> gs[k].id != id
    decreases |gs|
  {
    if |gs| == 0 then -1
    else if gs[0].id == id then 0
    else
      var r := FindIndex(gs[1..], id);
      if r < 0 then -1 else r + 1
  }
}

=== FILE: lumiere_app.dfy ===
/** The application shell: the genre catalogue it loads at start-up, the
    filters it holds, and the suggestion it displays. React state is an
    immutable `AppState`; each handler maps a state to the next one and to the
    notice (toast) it shows. */
module LumiereApp {
  import opened Outcomes
  import opened Tmdb
  import opened GenreSearch
  import opened QueryParams
  import FilterPanel

  // ---------------------------------------------------------------------
  // Genre merge

  /** The `filter((genre, index, self) => index === self.findIndex(...))`
      pass over `all`, from position `from` on. */
  function KeepFirstFrom(all: seq<Genre>, from: nat): (kept: seq<Genre>)
    requires from <= |all|
    ensures |kept| <= |all| - from
    decreases |all| - from
  {
    if from == |all| then []
    else (if FindIndex(all, all[from].id) == from then [all[from]] else []) + KeepFirstFrom(all, from + 1)
  }

  /** The genre catalogue: movie genres, then TV genres, each id once. */
  function MergeGenres(movieGenres: seq<Genre>, tvGenres: seq<Genre>): (merged: seq<Genre>)
    ensures |merged| <= |movieGenres| + |tvGenres|
    ensures |merged| > 0 <==> |movieGenres| + |tvGenres| > 0
  {
    KeepFirstFrom(movieGenres + tvGenres, 0)
  }

  /** One step of the filter: the entry at `from` is kept or dropped, then
      the rest is filtered. */
  lemma KeepFirstFromStep(all: seq<Genre>, from: nat)
    requires from < |all|
    ensures KeepFirstFrom(all, from) ==
      (if FindIndex(all, all[from].id) == from then [all[from]] else []) + KeepFirstFrom(all, from + 1)
  {
  }

  /** Each kept entry is the first entry of `all` with its id, at or after `from`. */
  lemma {:induction false} KeepFirstFromOrigin(all: seq<Genre>, from: nat)
    requires from <= |all|
    ensures forall g :: g in KeepFirstFrom(all, from) ==>
      from <= FindIndex(all, g.id) && all[FindIndex(all, g.id)] == g
    decreases |all| - from
  {
    if from < |all| {
      var head: seq<Genre> := if FindIndex(all, all[from].id) == from then [all[from]] else [];
      var tail := KeepFirstFrom(all, from + 1);
      KeepFirstFromStep(all, from);
      KeepFirstFromOrigin(all, from + 1);
      forall g: Genre | g in head + tail
        ensures from <= FindIndex(all, g.id) && all[FindIndex(all, g.id)] == g
      {
        if g !in tail {
          assert g in head;
        }
      }
    }
  }

  /** `out` lists entries in strictly increasing order of first position in `all`. */
  predicate InFirstPositionOrder(all: seq<Genre>, out: seq<Genre>) {
    forall j, k :: 0 <= j < k < |out| ==> FindIndex(all, out[j].id) < FindIndex(all, out[k].id)
  }

  /** Prepending an entry whose first position precedes those of an ordered
      list keeps it ordered. */
  lemma OrderedPrepend(all: seq<Genre>, g: Genre, tail: seq<Genre>)
    requires InFirstPositionOrder(all, tail)
    requires forall t :: t in tail ==> FindIndex(all, g.id) < FindIndex(all, t.id)
    ensures InFirstPositionOrder(all, [g] + tail)
  {
    var out := [g] + tail;
    forall j, k | 0 <= j < k < |out|
      ensures FindIndex(all, out[j].id) < FindIndex(all, out[k].id)
    {
      assert out[k] == tail[k - 1];
      if j > 0 {
        assert out[j] == tail[j - 1];
      } else {
        assert tail[k - 1] in tail;
      }
    }
  }

  /** The filter's step keeps the order of first positions. */
  lemma OrderedStep(all: seq<Genre>, from: nat)
    requires from < |all|
    requires InFirstPositionOrder(all, KeepFirstFrom(all, from + 1))
    ensures InFirstPositionOrder(all, KeepFirstFrom(all, from))
  {
    var tail := KeepFirstFrom(all, from + 1);
    KeepFirstFromStep(all, from);
    if FindIndex(all, all[from].id) == from {
      KeepFirstFromOrigin(all, from + 1);
      OrderedPrepend(all, all[from], tail);
    } else {
      assert [] + tail == tail;
    }
  }

  /** Kept entries appear in the order of their first positions. */
  lemma {:induction false} KeepFirstFromOrdered(all: seq<Genre>, from: nat)
    requires from <= |all|
    ensures InFirstPositionOrder(all, KeepFirstFrom(all, from))
    decreases |all| - from
  {
    if from < |all| {
      KeepFirstFromOrdered(all, from + 1);
      OrderedStep(all, from);
    }
  }

  /** Every first occurrence at or after `from` is kept. */
  lemma {:induction false} KeepFirstFromComplete(all: seq<Genre>, from: nat)
    requires from <= |all|
    ensures forall k :: from <= k < |all| && FindIndex(all, all[k].id) == k ==> all[k] in KeepFirstFrom(all, from)
    decreases |all| - from
  {
    if from < |all| {
      KeepFirstFromComplete(all, from + 1);
    }
  }

  /** The merged catalogue is the subsequence of `movieGenres + tvGenres`
      made of the first occurrence of each id: every entry is the first entry
      of the concatenation with its id, entries appear in the order of those
      first positions (so no id appears twice), and every id of either list
      is present. */
  lemma MergeGenresFirstOccurrences(movieGenres: seq<Genre>, tvGenres: seq<Genre>)
    ensures var all := movieGenres + tvGenres; var out := MergeGenres(movieGenres, tvGenres);
      forall j :: 0 <= j < |out| ==> 0 <= FindIndex(all, out[j].id) && all[FindIndex(all, out[j].id)] == out[j]
    ensures InFirstPositionOrder(movieGenres + tvGenres, MergeGenres(movieGenres, tvGenres))
    ensures var all := movieGenres + tvGenres; var out := MergeGenres(movieGenres, tvGenres);
      forall k :: 0 <= k < |all| ==> exists j :: 0 <= j < |out| && out[j].id == all[k].id
  {
    var all := movieGenres + tvGenres;
    var out := MergeGenres(movieGenres, tvGenres);
    assert out == KeepFirstFrom(all, 0);
    KeepFirstFromOrigin(all, 0);
    KeepFirstFromOrdered(all, 0);
    KeepFirstFromComplete(all, 0);
    forall j | 0 <= j < |out|
      ensures 0 <= FindIndex(all, out[j].id) && all[FindIndex(all, out[j].id)] == out[j]
    {
      assert out[j] in out;
    }
    forall k | 0 <= k < |all|
      ensures exists j :: 0 <= j < |out| && out[j].id == all[k].id
    {
      var f := FindIndex(all, all[k].id);
      assert FindIndex(all, all[f].id) == f;
      assert all[f] in out;
      var j :| 0 <= j < |out| && out[j] == all[f];
    }
  }

  /** No genre id appears twice in the merged catalogue. */
  lemma MergeGenresDistinct(movieGenres: seq<Genre>, tvGenres: seq<Genre>)
    ensures var out := MergeGenres(movieGenres, tvGenres);
      forall j, k :: 0 <= j < k < |out| ==> out[j].id != out[k].id
  {
    MergeGenresFirstOccurrences(movieGenres, tvGenres);
  }

  /** A lookup in a prefix that finds the id agrees with the lookup in the
      whole sequence. */
  lemma {:induction false} FindIndexPrefix(a: seq<Genre>, b: seq<Genre>, id: int)
    requires FindIndex(a, id) >= 0
    ensures FindIndex(a + b, id) == FindIndex(a, id)
    decreases |a|
  {
    if a[0].id != id {
      assert (a + b)[1..] == a[1..] + b;
      FindIndexPrefix(a[1..], b, id);
    }
  }

  /** On an id the movie list holds, the merged catalogue's entry for it is
      the movie list's first entry with that id, whatever the TV list holds. */
  lemma MergeGenresPrefersMovie(movieGenres: seq<Genre>, tvGenres: seq<Genre>, id: int)
    requires FindIndex(movieGenres, id) >= 0
    ensures movieGenres[FindIndex(movieGenres, id)] in MergeGenres(movieGenres, tvGenres)
    ensures forall g :: g in MergeGenres(movieGenres, tvGenres) && g.id == id ==>
      g == movieGenres[FindIndex(movieGenres, id)]
  {
    var all := movieGenres + tvGenres;
    var f := FindIndex(movieGenres, id);
    FindIndexPrefix(movieGenres, tvGenres, id);
    assert all[f] == movieGenres[f];
    KeepFirstFromOrigin(all, 0);
    KeepFirstFromComplete(all, 0);
  }

  // ---------------------------------------------------------------------
  // Application state

  datatype AppState = AppState(content: Option<ContentItem>, genres: seq<Genre>, currentFilters: Filters)

  /** The toasts the shell raises. */
  datatype Notice = NewSuggestion(title: Option<string>) | NoSuggestionFound | GenresUnavailable

  /** The state before any event. The shell's initial filter object also
      carries `minRating: 7`, which no code reads. */
  const Initial: AppState := AppState(None, [], Filters(Movie, [], "", "", "en"))

  /** Loads both genre lists together; if either request fails or either
      body lacks `genres`, the catalogue stays as it was. */
  function LoadGenres(s: AppState, slot: KeySlot, server: Request -> Reply): (r: (AppState, Option<Notice>))
    ensures r.0.content == s.content && r.0.currentFilters == s.currentFilters
    ensures r.1.None? <==> GetGenres(slot, Movie, server).Success? && GetGenres(slot, Movie, server).value.Some?
                           && GetGenres(slot, Tv, server).Success? && GetGenres(slot, Tv, server).value.Some?
    ensures r.1.Some? ==> r.1 == Some(GenresUnavailable) && r.0 == s
    ensures r.1.None? ==>
      r.0.genres == MergeGenres(GetGenres(slot, Movie, server).value.value, GetGenres(slot, Tv, server).value.value)
    ensures r.1.None? ==> forall j, k :: 0 <= j < k < |r.0.genres| ==> r.0.genres[j].id != r.0.genres[k].id
  {
    match (GetGenres(slot, Movie, server), GetGenres(slot, Tv, server))
    case (Success(Some(m)), Success(Some(t))) =>
      MergeGenresDistinct(m, t);
      (s.(genres := MergeGenres(m, t)), None)
    case _ => (s, Some(GenresUnavailable))
  }

  /** `handleFiltersChange`: adopt the new filters and clear the display. */
  function HandleFiltersChange(s: AppState, f: Filters): (t: AppState)
    ensures t.currentFilters == f
    ensures t.content.None?
    ensures t.genres == s.genres
  {
    s.(currentFilters := f, content := None)
  }

  /** The outcome branch of `handleGetSuggestion`: a suggestion replaces the
      displayed content, its absence leaves the state as it was. */
  function ApplySuggestion(s: AppState, suggestion: Option<ContentItem>): (r: (AppState, Notice))
    ensures r.0.currentFilters == s.currentFilters && r.0.genres == s.genres
    ensures suggestion.Some? ==> r.0.content == suggestion && r.1 == NewSuggestion(suggestion.value.title)
    ensures suggestion.None? ==> r == (s, NoSuggestionFound)
  {
    match suggestion
    case Some(item) => (s.(content := Some(item)), NewSuggestion(item.title))
    case None => (s, NoSuggestionFound)
  }

  /** `handleGetSuggestion`: asks for a suggestion under the current filters.
      The service turns every failure into "no suggestion", so the shell's own
      error branch is never taken. */
  function HandleGetSuggestion(s: AppState, slot: KeySlot, pageDraw: Draw, indexDraw: Draw, server: Request -> Reply): (r: (AppState, Notice))
    requires pageDraw.Valid() && indexDraw.Valid()
    ensures r.0.currentFilters == s.currentFilters && r.0.genres == s.genres
    ensures r.1.NewSuggestion? || r.1.NoSuggestionFound?
    ensures r.1.NoSuggestionFound? <==> r.0 == s && GetRandomSuggestion(slot, s.currentFilters, pageDraw, indexDraw, server).None?
    ensures r.1.NewSuggestion? ==>
      r.0.content.Some? &&
      DiscoverContent(slot, s.currentFilters, SuggestionPage(pageDraw), server).Success? &&
      r.0.content.value in DiscoverContent(slot, s.currentFilters, SuggestionPage(pageDraw), server).value.results
    ensures r.1.NewSuggestion? ==> r.0.content == GetRandomSuggestion(slot, s.currentFilters, pageDraw, indexDraw, server)
    ensures !IsApiKeySet(slot) ==> r == (s, NoSuggestionFound)
  {
    ApplySuggestion(s, GetRandomSuggestion(slot, s.currentFilters, pageDraw, indexDraw, server))
  }

  /** Only the last filter change counts. */
  lemma FiltersChangeLastWins(s: AppState, f: Filters, g: Filters)
    ensures HandleFiltersChange(HandleFiltersChange(s, f), g) == HandleFiltersChange(s, g)
  {
  }

  /** After a filter change, a request issued under the new filters that
      yields nothing leaves the display empty. */
  lemma FiltersChangeThenNothing(s: AppState, f: Filters, slot: KeySlot, pageDraw: Draw, indexDraw: Draw, server: Request -> Reply)
    requires pageDraw.Valid() && indexDraw.Valid()
    requires GetRandomSuggestion(slot, f, pageDraw, indexDraw, server).None?
    ensures HandleGetSuggestion(HandleFiltersChange(s, f), slot, pageDraw, indexDraw, server).0.content.None?
  {
  }

  /** The shell's first discover query asks for English-language titles,
      while the filter panel, which starts cleared, asks for none. */
  lemma InitialLanguageDisagrees(page: int)
    ensures Lookup(DiscoverParams(Initial.currentFilters, page), "with_original_language") == Some(Text("en"))
    ensures Lookup(DiscoverParams(FilterPanel.Cleared, page), "with_original_language") == None
  {
    DiscoverLookup(Initial.currentFilters, page, "with_original_language");
    DiscoverLookup(FilterPanel.Cleared, page, "with_original_language");
  }
}

=== FILE: outcomes.dfy ===
/** Failure-carrying values shared by the catalog service and the components.
    `Option` stands for a JavaScript value that may be `undefined`/`null`;
    `Result` stands for a promise that either resolves or rejects. */
module Outcomes {

  datatype Option<+T> = None | Some(value: T) {

    /** The value, or `default` when absent (the `a ?? b` idiom). */
    function GetOr(default: T): T {
      match this
      case Some(v) => v
      case None => default
    }
  }

  datatype Result<+T, +E> = Success(value: T) | Failure(error: E)
}

=== FILE: query_params.dfy ===
/** The `params` record a TMDb request is built from, as an insertion-ordered
    list of entries (a JavaScript object whose keys are never integer-like
    enumerates its own keys in insertion order), and the filtering step that
    turns the record into URL query pairs. */
module QueryParams {
  import opened Outcomes
  import Decimal

  /** A JavaScript value stored under a parameter key. */
  datatype ParamValue = Undefined | Null | Text(s: string) | Number(n: int)

  type Params = seq<(string, ParamValue)>

  function Keys(ps: Params): (ks: seq<string>)
    ensures |ks| == |ps|
    ensures forall i :: 0 <= i < |ps| ==> ks[i] == ps[i].0
    decreases |ps|
  {
    if |ps| == 0 then [] else [ps[0].0] + Keys(ps[1..])
  }

  predicate DistinctKeys(ps: Params) {
    forall i, j :: 0 <= i < j < |ps| ==> ps[i].0 != ps[j].0
  }

  /** `params[key]`: the value stored under `key`, if any. */
  function Lookup(ps: Params, key: string): Option<ParamValue>
    decreases |ps|
  {
    if |ps| == 0 then None
    else if ps[0].0 == key then Some(ps[0].1)
    else Lookup(ps[1..], key)
  }

  /** A key is found exactly when the record holds it, and what is found is
      stored under it. */
  lemma {:induction false} LookupFinds(ps: Params, key: string)
    ensures Lookup(ps, key).None? <==> key !in Keys(ps)
    ensures Lookup(ps, key).Some? ==> (key, Lookup(ps, key).value) in ps
    decreases |ps|
  {
    if |ps| > 0 {
      assert Keys(ps) == [ps[0].0] + Keys(ps[1..]);
      LookupFinds(ps[1..], key);
    }
  }

  /** `params[key] = value`: an existing key keeps its position and takes the
      new value; a new key is appended after all existing ones. */
  function Assign(ps: Params, key: string, value: ParamValue): (r: Params)
    ensures Keys(r) == if key in Keys(ps) then Keys(ps) else Keys(ps) + [key]
    decreases |ps|
  {
    if |ps| == 0 then [(key, value)]
    else if ps[0].0 == key then
      var r := [(key, value)] + ps[1..];
      assert r[1..] == ps[1..];
      r
    else
      var rest := Assign(ps[1..], key, value);
      var r := [ps[0]] + rest;
      assert r[1..] == rest;
      r
  }

  /** After an assignment the key holds the new value, and every other key
      holds what it held before. */
  lemma {:induction false} AssignLookup(ps: Params, key: string, value: ParamValue, k: string)
    ensures Lookup(Assign(ps, key, value), k) == if k == key then Some(value) else Lookup(ps, k)
    decreases |ps|
  {
    if |ps| > 0 && ps[0].0 != key {
      AssignLookup(ps[1..], key, value, k);
    }
  }

  /** Assigning a key the record does not hold appends the entry. */
  lemma {:induction false} AssignFresh(ps: Params, key: string, value: ParamValue)
    requires key !in Keys(ps)
    ensures Assign(ps, key, value) == ps + [(key, value)]
    decreases |ps|
  {
    if |ps| > 0 {
      assert ps[0].0 != key;
      assert key !in Keys(ps[1..]);
      AssignFresh(ps[1..], key, value);
      calc {
        Assign(ps, key, value);
        [ps[0]] + Assign(ps[1..], key, value);
        [ps[0]] + (ps[1..] + [(key, value)]);
        { assert ps == [ps[0]] + ps[1..]; }
        ps + [(key, value)];
      }
    }
  }

  /** In a record with distinct keys, an entry is what looking up its key finds. */
  lemma {:induction false} LookupDistinct(ps: Params, key: string, value: ParamValue)
    requires DistinctKeys(ps)
    requires (key, value) in ps
    ensures Lookup(ps, key) == Some(value)
    decreases |ps|
  {
    if ps[0] != (key, value) {
      var i :| 0 <= i < |ps| && ps[i] == (key, value);
      assert ps[1..][i - 1] == (key, value);
      LookupDistinct(ps[1..], key, value);
    }
  }

  /** The test `makeRequest` applies before appending a parameter:
      `value !== undefined && value !== null && value !== ''`. */
  predicate Kept(v: ParamValue) {
    !v.Undefined? && !v.Null? && v != Text("")
  }

  /** `value.toString()` for a value that passed the test. */
  function Render(v: ParamValue): (s: string)
    requires Kept(v)
    ensures s != ""
  {
    if v.Text? then v.s else Decimal.IntToString(v.n)
  }

  /** The query pairs appended for `params`, in the record's order. */
  function KeepRendered(ps: Params): (q: seq<(string, string)>)
    ensures |q| <= |ps|
    decreases |ps|
  {
    if |ps| == 0 then []
    else (if Kept(ps[0].1) then [(ps[0].0, Render(ps[0].1))] else []) + KeepRendered(ps[1..])
  }

  /** Every kept parameter reaches the query, and every query pair comes from
      a kept parameter. */
  lemma {:induction false} KeepRenderedMembers(ps: Params)
    ensures forall i :: 0 <= i < |ps| && Kept(ps[i].1) ==> (ps[i].0, Render(ps[i].1)) in KeepRendered(ps)
    ensures forall p :: p in KeepRendered(ps) ==>
      exists i :: 0 <= i < |ps| && ps[i].0 == p.0 && Kept(ps[i].1) && Render(ps[i].1) == p.1
    decreases |ps|
  {
    if |ps| > 0 {
      KeepRenderedMembers(ps[1..]);
      assert forall i :: 1 <= i < |ps| ==> ps[i] == ps[1..][i - 1];
    }
  }

  /** Filtering commutes with concatenation: parameters keep their relative
      order, and dropping one does not disturb the others. */
  lemma {:induction false} KeepRenderedAppend(a: Params, b: Params)
    ensures KeepRendered(a + b) == KeepRendered(a) + KeepRendered(b)
    decreases |a|
  {
    if |a| > 0 {
      assert (a + b)[0] == a[0];
      assert (a + b)[1..] == a[1..] + b;
      var h := if Kept(a[0].1) then [(a[0].0, Render(a[0].1))] else [];
      assert KeepRendered(a + b) == h + KeepRendered(a[1..] + b);
      assert KeepRendered(a) == h + KeepRendered(a[1..]);
      KeepRenderedAppend(a[1..], b);
    } else {
      assert a + b == b;
    }
  }

  /** When no value is dropped, the query pairs line up one for one with the
      record's entries. */
  lemma {:induction false} KeepRenderedAllKept(ps: Params)
    requires forall i :: 0 <= i < |ps| ==> Kept(ps[i].1)
    ensures |KeepRendered(ps)| == |ps|
    ensures forall i :: 0 <= i < |ps| ==> KeepRendered(ps)[i] == (ps[i].0, Render(ps[i].1))
    decreases |ps|
  {
    if |ps| > 0 {
      KeepRenderedAllKept(ps[1..]);
    }
  }

  /** An undefined, null or empty-string value contributes nothing. */
  lemma KeepRenderedDropsEmpty(a: Params, key: string, v: ParamValue, b: Params)
    requires !Kept(v)
    ensures KeepRendered(a + [(key, v)] + b) == KeepRendered(a + b)
  {
    KeepRenderedAppend(a + [(key, v)], b);
    KeepRenderedAppend(a, [(key, v)]);
    KeepRenderedAppend(a, b);
  }
}

=== FILE: tmdb.dfy ===
/** The TMDb service: request construction around a stored API key, the
    discover query built from the user's filters, the normalisation of movie
    and TV records into one item shape, and the random suggestion.
    The remote catalog is a total function from a request to its reply, so
    every outcome of `fetch` (a network failure, an HTTP error, a body that
    is not JSON, a JSON body without the expected field) is an input. */
module Tmdb {
  import opened Outcomes
  import opened QueryParams
  import Decimal

  const BaseUrl: string := "https://api.themoviedb.org/3"
  const Locale: string := "pt-BR"
  /** `discoverContent` writes the literal `7.0`; JavaScript renders it as "7". */
  const MinVoteAverage: int := 7
  const MinVoteCount: int := 100
  const SortBy: string := "vote_average.desc"
  /** Number of result pages the suggestion draws from. */
  const MaxPages: nat := 3

  datatype ContentType = Movie | Tv {
    function Name(): string {
      match this
      case Movie => "movie"
      case Tv => "tv"
    }
  }

  datatype Filters = Filters(
    contentType: ContentType,
    genres: seq<int>,
    yearFrom: string,
    yearTo: string,
    language: string)

  datatype Genre = Genre(id: int, name: string)

  /** An entry of `created_by` or `production_companies`. */
  datatype Credit = Credit(id: int, name: string)

  /** A record as the catalog sends it: a movie carries `title` and
      `release_date`, a TV show `name` and `first_air_date`. */
  datatype RawItem = RawItem(
    id: int,
    title: Option<string>,
    name: Option<string>,
    overview: string,
    releaseDate: Option<string>,
    firstAirDate: Option<string>,
    genreIds: seq<int>,
    originalLanguage: string,
    createdBy: Option<seq<Credit>>,
    productionCompanies: Option<seq<Credit>>)

  /** The uniform item shape the rest of the application reads. */
  datatype ContentItem = ContentItem(
    id: int,
    title: Option<string>,
    overview: string,
    releaseDate: Option<string>,
    firstAirDate: Option<string>,
    genreIds: seq<int>,
    originalLanguage: string,
    createdBy: Option<seq<Credit>>,
    productionCompanies: Option<seq<Credit>>)

  datatype Request = Request(url: string, query: seq<(string, string)>)

  /** The decoded JSON object of a successful response. */
  datatype Body = Body(
    results: Option<seq<RawItem>>,
    totalPages: int,
    totalResults: int,
    genres: Option<seq<Genre>>)

  /** What `fetch` gives back: a rejection, or a status with a body that
      may fail to decode. */
  datatype Reply = NetworkFailure | Http(status: int, body: Option<Body>)

  datatype Error = MissingApiKey | NetworkError | HttpError(status: int) | MalformedBody

  datatype Page = Page(results: seq<ContentItem>, totalPages: int, totalResults: int)

  /** A value of `Math.random()`: the rational `num / den` in [0, 1). */
  datatype Draw = Draw(num: nat, den: nat) {
    predicate Valid() { num < den }
  }

  // ---------------------------------------------------------------------
  // API key

  /** The slot `setTmdbApiKey` writes: `window.TMDB_API_KEY`. */
  type KeySlot = Option<string>

  function SetTmdbApiKey(apiKey: string): (slot: KeySlot)
    ensures GetTmdbApiKey(slot) == apiKey
  {
    Some(apiKey)
  }

  /** `window.TMDB_API_KEY || ''`. */
  function GetTmdbApiKey(slot: KeySlot): (key: string)
    ensures slot.None? ==> key == ""
    ensures key != "" ==> slot == Some(key)
  {
    slot.GetOr("")
  }

  function IsApiKeySet(slot: KeySlot): (b: bool)
    ensures b <==> slot.Some? && |slot.value| > 0
  {
    GetTmdbApiKey(slot) != ""
  }

  // ---------------------------------------------------------------------
  // makeRequest

  /** The URL `makeRequest` assembles: the credential, then the locale, then
      every caller parameter whose value is not undefined, null or ''. */
  function BuildRequest(slot: KeySlot, endpoint: string, params: Params): (r: Result<Request, Error>)
    ensures r.Failure? <==> !IsApiKeySet(slot)
    ensures r.Failure? ==> r.error == MissingApiKey
    ensures r.Success? ==> r.value.url == BaseUrl + endpoint
    ensures r.Success? ==> |r.value.query| == 2 + |KeepRendered(params)|
    ensures r.Success? ==> r.value.query[0] == ("api_key", slot.value)
    ensures r.Success? ==> r.value.query[1] == ("language", Locale)
    ensures r.Success? ==> r.value.query[2..] == KeepRendered(params)
  {
    var apiKey := GetTmdbApiKey(slot);
    if apiKey == "" then Failure(MissingApiKey)
    else Success(Request(BaseUrl + endpoint, [("api_key", apiKey), ("language", Locale)] + KeepRendered(params)))
  }

  /** A reply `makeRequest` accepts: `response.ok` and a decodable body. */
  predicate Accepted(reply: Reply) {
    reply.Http? && 200 <= reply.status <= 299 && reply.body.Some?
  }

  function Fetch(server: Request -> Reply, req: Request): (r: Result<Body, Error>)
    ensures r.Success? <==> Accepted(server(req))
    ensures r.Success? ==> server(req).body == Some(r.value)
  {
    match server(req)
    case NetworkFailure => Failure(NetworkError)
    case Http(status, body) =>
      if !(200 <= status <= 299) then Failure(HttpError(status))
      else if body.None? then Failure(MalformedBody)
      else Success(body.value)
  }

  function MakeRequest(slot: KeySlot, endpoint: string, params: Params, server: Request -> Reply): (r: Result<Body, Error>)
    ensures !IsApiKeySet(slot) ==> r == Failure(MissingApiKey)
    ensures r.Success? <==> IsApiKeySet(slot) && Accepted(server(BuildRequest(slot, endpoint, params).value))
    ensures r.Success? ==> server(BuildRequest(slot, endpoint, params).value).body == Some(r.value)
  {
    match BuildRequest(slot, endpoint, params)
    case Failure(e) => Failure(e)
    case Success(req) => Fetch(server, req)
  }

  /** A missing key is reported without consulting the catalog: the outcome
      is the same whatever the catalog would have answered. */
  lemma MissingKeyNeedsNoCatalog(slot: KeySlot, endpoint: string, params: Params, s1: Request -> Reply, s2: Request -> Reply)
    requires !IsApiKeySet(slot)
    ensures MakeRequest(slot, endpoint, params, s1) == MakeRequest(slot, endpoint, params, s2)
    ensures MakeRequest(slot, endpoint, params, s1).Failure?
  {
  }

  // ---------------------------------------------------------------------
  // getGenres

  function GenresEndpoint(contentType: ContentType): string {
    "/genre/" + contentType.Name() + "/list"
  }

  /** `response.genres`, which is undefined when the body lacks the field. */
  function GetGenres(slot: KeySlot, contentType: ContentType, server: Request -> Reply): (r: Result<Option<seq<Genre>>, Error>)
    ensures r.Success? <==> MakeRequest(slot, GenresEndpoint(contentType), [], server).Success?
    ensures r.Success? ==> r.value == MakeRequest(slot, GenresEndpoint(contentType), [], server).value.genres
  {
    match MakeRequest(slot, GenresEndpoint(contentType), [], server)
    case Failure(e) => Failure(e)
    case Success(body) => Success(body.genres)
  }

  /** The genre request carries only the credential and the locale. */
  lemma GenresQuery(slot: KeySlot, contentType: ContentType)
    requires IsApiKeySet(slot)
    ensures BuildRequest(slot, GenresEndpoint(contentType), []).value.query == [("api_key", slot.value), ("language", Locale)]
  {
  }

  // ---------------------------------------------------------------------
  // discoverContent

  function DiscoverEndpoint(contentType: ContentType): string {
    "/discover/" + contentType.Name()
  }

  /** The date key a year bound is written under: release date for movies,
      first air date for anything else. */
  function DateKey(contentType: ContentType, lower: bool): string {
    (if contentType == Movie then "primary_release_date" else "first_air_date")
    + (if lower then ".gte" else ".lte")
  }

  /** The four parameters every discover query starts with. */
  function FixedParams(page: int): (ps: Params)
    ensures DistinctKeys(ps)
    ensures forall i :: 0 <= i < |ps| ==> Kept(ps[i].1)
  {
    [ ("page", Number(page)),
      ("vote_average.gte", Number(MinVoteAverage)),
      ("vote_count.gte", Number(MinVoteCount)),
      ("sort_by", Text(SortBy)) ]
  }

  /** `params[key] = value` when `cond` holds. */
  function AssignIf(ps: Params, cond: bool, key: string, value: ParamValue): Params {
    if cond then Assign(ps, key, value) else ps
  }

  /** The `params` record `discoverContent` builds, statement by statement. */
  function DiscoverParams(f: Filters, page: int): Params {
    var p0 := FixedParams(page);
    var p1 := AssignIf(p0, |f.genres| > 0, "with_genres", Text(Decimal.JoinIds(f.genres)));
    var p2 := AssignIf(p1, f.yearFrom != "", DateKey(f.contentType, true), Text(f.yearFrom + "-01-01"));
    var p3 := AssignIf(p2, f.yearTo != "", DateKey(f.contentType, false), Text(f.yearTo + "-12-31"));
    AssignIf(p3, f.language != "", "with_original_language", Text(f.language))
  }

  /** Copies `title || name` into `title`, keeps the two dates as they were,
      and carries every other field over unchanged. */
  function Normalize(item: RawItem): (c: ContentItem)
    ensures c.id == item.id && c.genreIds == item.genreIds
    ensures c.releaseDate == item.releaseDate && c.firstAirDate == item.firstAirDate
    ensures c.overview == item.overview && c.originalLanguage == item.originalLanguage
    ensures c.createdBy == item.createdBy && c.productionCompanies == item.productionCompanies
    ensures c.title.Some? && c.title.value != "" <==>
      (item.title.Some? && item.title.value != "") || (item.name.Some? && item.name.value != "")
  {
    var title := if item.title.Some? && item.title.value != "" then item.title else item.name;
    ContentItem(item.id, title, item.overview, item.releaseDate, item.firstAirDate,
                item.genreIds, item.originalLanguage, item.createdBy, item.productionCompanies)
  }

  function NormalizeAll(items: seq<RawItem>): (r: seq<ContentItem>)
    ensures |r| == |items|
    ensures forall i :: 0 <= i < |items| ==> r[i] == Normalize(items[i])
  {
    seq(|items|, i requires 0 <= i < |items| => Normalize(items[i]))
  }

  function DiscoverContent(slot: KeySlot, f: Filters, page: int, server: Request -> Reply): (r: Result<Page, Error>)
    ensures !IsApiKeySet(slot) ==> r == Failure(MissingApiKey)
    ensures r.Success? <==>
      var body := MakeRequest(slot, DiscoverEndpoint(f.contentType), DiscoverParams(f, page), server);
      body.Success? && body.value.results.Some?
    ensures r.Success? ==>
      var body := MakeRequest(slot, DiscoverEndpoint(f.contentType), DiscoverParams(f, page), server).value;
      && r.value.results == NormalizeAll(body.results.value)
      && r.value.totalPages == body.totalPages
      && r.value.totalResults == body.totalResults
  {
    match MakeRequest(slot, DiscoverEndpoint(f.contentType), DiscoverParams(f, page), server)
    case Failure(e) => Failure(e)
    case Success(body) =>
      if body.results.None? then Failure(MalformedBody)
      else Success(Page(NormalizeAll(body.results.value), body.totalPages, body.totalResults))
  }

  // ---------------------------------------------------------------------
  // getRandomSuggestion

  /** `Math.floor(u * n)` for a draw `u` in [0, 1). */
  function Scale(u: Draw, n: nat): (k: nat)
    requires u.Valid()
    ensures n > 0 ==> k < n
  {
    ScaleBound(u, n);
    u.num * n / u.den
  }

  lemma ScaleBound(u: Draw, n: nat)
    requires u.Valid()
    ensures n > 0 ==> u.num * n / u.den < n
  {
    if n > 0 {
      assert u.num * n < u.den * n by {
        assert (u.den - u.num) * n > 0;
      }
    }
  }

  /** `Math.floor(Math.random() * maxPages) + 1`. */
  function SuggestionPage(u: Draw): (page: int)
    requires u.Valid()
    ensures 1 <= page <= MaxPages
  {
    Scale(u, MaxPages) + 1
  }

  /** One random page of the discover query, then one random item of it;
      `None` when the page is empty and whenever anything failed. */
  function GetRandomSuggestion(slot: KeySlot, f: Filters, pageDraw: Draw, indexDraw: Draw, server: Request -> Reply): (r: Option<ContentItem>)
    requires pageDraw.Valid() && indexDraw.Valid()
    ensures !IsApiKeySet(slot) ==> r.None?
    ensures r.Some? <==>
      var page := DiscoverContent(slot, f, SuggestionPage(pageDraw), server);
      page.Success? && |page.value.results| > 0
    ensures r.Some? ==> r.value in DiscoverContent(slot, f, SuggestionPage(pageDraw), server).value.results
  {
    match DiscoverContent(slot, f, SuggestionPage(pageDraw), server)
    case Failure(_) => None
    case Success(page) =>
      if |page.results| == 0 then None
      else Some(page.results[Scale(indexDraw, |page.results|)])
  }

  // ---------------------------------------------------------------------
  // Properties of the discover query

  /** A parameter entry that is present only when `cond` holds. */
  function Optional<T>(cond: bool, key: string, value: T): seq<(string, T)> {
    if cond then [(key, value)] else []
  }

  lemma AssignIfFresh(ps: Params, cond: bool, key: string, value: ParamValue)
    requires cond ==> key !in Keys(ps)
    ensures AssignIf(ps, cond, key, value) == ps + Optional(cond, key, value)
    ensures Keys(ps + Optional(cond, key, value)) == Keys(ps) + (if cond then [key] else [])
  {
    if cond {
      AssignFresh(ps, key, value);
    }
    assert Keys(ps + Optional(cond, key, value)) == Keys(ps) + (if cond then [key] else []);
  }

  /** Four conditional assignments of pairwise different keys, none yet
      present, append their entries in order. */
  lemma AssignFourFresh(ps: Params,
                        c1: bool, k1: string, v1: ParamValue, c2: bool, k2: string, v2: ParamValue,
                        c3: bool, k3: string, v3: ParamValue, c4: bool, k4: string, v4: ParamValue)
    requires k1 !in Keys(ps) && k2 !in Keys(ps) && k3 !in Keys(ps) && k4 !in Keys(ps)
    requires k1 != k2 && k1 != k3 && k1 != k4 && k2 != k3 && k2 != k4 && k3 != k4
    ensures AssignIf(AssignIf(AssignIf(AssignIf(ps, c1, k1, v1), c2, k2, v2), c3, k3, v3), c4, k4, v4)
      == ps + Optional(c1, k1, v1) + Optional(c2, k2, v2) + Optional(c3, k3, v3) + Optional(c4, k4, v4)
  {
    var p1 := ps + Optional(c1, k1, v1);
    AssignIfFresh(ps, c1, k1, v1);
    assert k2 !in Keys(p1) && k3 !in Keys(p1) && k4 !in Keys(p1);
    var p2 := p1 + Optional(c2, k2, v2);
    AssignIfFresh(p1, c2, k2, v2);
    assert k3 !in Keys(p2) && k4 !in Keys(p2);
    var p3 := p2 + Optional(c3, k3, v3);
    AssignIfFresh(p2, c3, k3, v3);
    assert k4 !in Keys(p3);
    AssignIfFresh(p3, c4, k4, v4);
  }

  /** Every `params[...] = ...` in `discoverContent` writes a key not yet
      present, so the record is the four fixed entries followed by the
      optional ones in the order `discoverContent` assigns them. */
  lemma DiscoverParamsLayout(f: Filters, page: int)
    ensures DiscoverParams(f, page) ==
      FixedParams(page)
      + Optional(|f.genres| > 0, "with_genres", Text(Decimal.JoinIds(f.genres)))
      + Optional(f.yearFrom != "", DateKey(f.contentType, true), Text(f.yearFrom + "-01-01"))
      + Optional(f.yearTo != "", DateKey(f.contentType, false), Text(f.yearTo + "-12-31"))
      + Optional(f.language != "", "with_original_language", Text(f.language))
  {
    var lo := DateKey(f.contentType, true);
    var hi := DateKey(f.contentType, false);
    var fixedKeys := ["page", "vote_average.gte", "vote_count.gte", "sort_by"];
    assert Keys(FixedParams(page)) == fixedKeys;
    DateKeysDistinct(f.contentType);
    assert lo !in fixedKeys && hi !in fixedKeys;
    AssignFourFresh(FixedParams(page),
      |f.genres| > 0, "with_genres", Text(Decimal.JoinIds(f.genres)),
      f.yearFrom != "", lo, Text(f.yearFrom + "-01-01"),
      f.yearTo != "", hi, Text(f.yearTo + "-12-31"),
      f.language != "", "with_original_language", Text(f.language));
  }

  lemma KeepRenderedOptional(cond: bool, key: string, text: string)
    requires cond ==> text != ""
    ensures KeepRendered(Optional(cond, key, Text(text))) == Optional(cond, key, text)
  {
  }

  lemma FixedParamsRendered(page: int)
    ensures KeepRendered(FixedParams(page)) ==
      [ ("page", Decimal.IntToString(page)), ("vote_average.gte", "7"),
        ("vote_count.gte", "100"), ("sort_by", SortBy) ]
  {
    assert Decimal.NatToString(7) == "7";
    assert Decimal.NatToString(10) == "10";
    assert Decimal.NatToString(100) == "100";
    KeepRenderedAllKept(FixedParams(page));
  }

  /** The query pairs the discover parameters turn into: none is dropped,
      and they keep the order in which `discoverContent` assigns them. */
  lemma DiscoverRendered(f: Filters, page: int)
    ensures KeepRendered(DiscoverParams(f, page)) ==
      [ ("page", Decimal.IntToString(page)), ("vote_average.gte", "7"),
        ("vote_count.gte", "100"), ("sort_by", "vote_average.desc") ]
      + Optional(|f.genres| > 0, "with_genres", Decimal.JoinIds(f.genres))
      + Optional(f.yearFrom != "", DateKey(f.contentType, true), f.yearFrom + "-01-01")
      + Optional(f.yearTo != "", DateKey(f.contentType, false), f.yearTo + "-12-31")
      + Optional(f.language != "", "with_original_language", f.language)
  {
    var ct := f.contentType;
    var fixed := FixedParams(page);
    var g := Optional(|f.genres| > 0, "with_genres", Text(Decimal.JoinIds(f.genres)));
    var lo := Optional(f.yearFrom != "", DateKey(ct, true), Text(f.yearFrom + "-01-01"));
    var hi := Optional(f.yearTo != "", DateKey(ct, false), Text(f.yearTo + "-12-31"));
    var lang := Optional(f.language != "", "with_original_language", Text(f.language));
    DiscoverParamsLayout(f, page);
    assert DiscoverParams(f, page) == fixed + g + lo + hi + lang;
    KeepRenderedAppend(fixed + g + lo + hi, lang);
    KeepRenderedAppend(fixed + g + lo, hi);
    KeepRenderedAppend(fixed + g, lo);
    KeepRenderedAppend(fixed, g);
    FixedParamsRendered(page);
    Decimal.JoinIdsEmpty(f.genres);
    KeepRenderedOptional(|f.genres| > 0, "with_genres", Decimal.JoinIds(f.genres));
    KeepRenderedOptional(f.yearFrom != "", DateKey(ct, true), f.yearFrom + "-01-01");
    KeepRenderedOptional(f.yearTo != "", DateKey(ct, false), f.yearTo + "-12-31");
    if f.language != "" {
      KeepRenderedOptional(true, "with_original_language", f.language);
    }
  }

  lemma Regroup<T>(a: seq<T>, b: seq<T>, c: seq<T>, d: seq<T>, e: seq<T>, f: seq<T>)
    ensures a + (b + c + d + e + f) == (a + b) + c + d + e + f
  {
  }

  /** The complete discover request: base URL and endpoint, the credential,
      the locale, then the discover parameters as rendered above. */
  lemma DiscoverQuery(slot: KeySlot, f: Filters, page: int)
    requires IsApiKeySet(slot)
    ensures BuildRequest(slot, DiscoverEndpoint(f.contentType), DiscoverParams(f, page)).value ==
      Request(
        BaseUrl + "/discover/" + f.contentType.Name(),
        [ ("api_key", slot.value), ("language", "pt-BR"),
          ("page", Decimal.IntToString(page)), ("vote_average.gte", "7"),
          ("vote_count.gte", "100"), ("sort_by", "vote_average.desc") ]
        + Optional(|f.genres| > 0, "with_genres", Decimal.JoinIds(f.genres))
        + Optional(f.yearFrom != "", DateKey(f.contentType, true), f.yearFrom + "-01-01")
        + Optional(f.yearTo != "", DateKey(f.contentType, false), f.yearTo + "-12-31")
        + Optional(f.language != "", "with_original_language", f.language))
  {
    var ct := f.contentType;
    var fixed := [ ("page", Decimal.IntToString(page)), ("vote_average.gte", "7"),
                   ("vote_count.gte", "100"), ("sort_by", "vote_average.desc") ];
    var g := Optional(|f.genres| > 0, "with_genres", Decimal.JoinIds(f.genres));
    var lo := Optional(f.yearFrom != "", DateKey(ct, true), f.yearFrom + "-01-01");
    var hi := Optional(f.yearTo != "", DateKey(ct, false), f.yearTo + "-12-31");
    var lang := Optional(f.language != "", "with_original_language", f.language);
    var creds := [("api_key", slot.value), ("language", "pt-BR")];
    DiscoverRendered(f, page);
    BuildRequestShape(slot, DiscoverEndpoint(ct), DiscoverParams(f, page), fixed + g + lo + hi + lang);
    assert BaseUrl + DiscoverEndpoint(ct) == BaseUrl + "/discover/" + ct.Name();
    Regroup(creds, fixed, g, lo, hi, lang);
    assert creds + fixed == [ ("api_key", slot.value), ("language", "pt-BR"),
      ("page", Decimal.IntToString(page)), ("vote_average.gte", "7"),
      ("vote_count.gte", "100"), ("sort_by", "vote_average.desc") ];
  }

  /** A request built with a key is the base URL plus the endpoint, with the
      credential and the locale ahead of the rendered parameters. */
  lemma BuildRequestShape(slot: KeySlot, endpoint: string, params: Params, rendered: seq<(string, string)>)
    requires IsApiKeySet(slot) && KeepRendered(params) == rendered
    ensures BuildRequest(slot, endpoint, params).value ==
      Request(BaseUrl + endpoint, [("api_key", slot.value), ("language", "pt-BR")] + rendered)
  {
    var req := BuildRequest(slot, endpoint, params).value;
    assert req.query == req.query[..2] + req.query[2..];
  }

  lemma AssignIfLookup(ps: Params, cond: bool, key: string, value: ParamValue, k: string)
    ensures Lookup(AssignIf(ps, cond, key, value), k) == if cond && k == key then Some(value) else Lookup(ps, k)
  {
    if cond {
      AssignLookup(ps, key, value, k);
    }
  }

  /** Reference table of the discover parameters, key by key: the four
      fixed values, the genre list exactly when one is selected, a lower bound
      exactly when `yearFrom` is non-empty and an upper bound exactly when
      `yearTo` is (under the movie keys for movies and the TV keys otherwise),
      the language exactly when one is chosen, and nothing else. */
  function DiscoverTable(f: Filters, page: int, k: string): Option<ParamValue> {
    if k == "page" then Some(Number(page))
    else if k == "vote_average.gte" then Some(Number(MinVoteAverage))
    else if k == "vote_count.gte" then Some(Number(MinVoteCount))
    else if k == "sort_by" then Some(Text(SortBy))
    else if k == "with_genres" && |f.genres| > 0 then Some(Text(Decimal.JoinIds(f.genres)))
    else if k == DateKey(f.contentType, true) && f.yearFrom != "" then Some(Text(f.yearFrom + "-01-01"))
    else if k == DateKey(f.contentType, false) && f.yearTo != "" then Some(Text(f.yearTo + "-12-31"))
    else if k == "with_original_language" && f.language != "" then Some(Text(f.language))
    else None
  }

  lemma FixedLookup(page: int, k: string)
    ensures Lookup(FixedParams(page), k) ==
      if k == "page" then Some(Number(page))
      else if k == "vote_average.gte" then Some(Number(MinVoteAverage))
      else if k == "vote_count.gte" then Some(Number(MinVoteCount))
      else if k == "sort_by" then Some(Text(SortBy))
      else None
  {
    var p := FixedParams(page);
    assert Lookup(p, k) == if k == "page" then Some(Number(page)) else Lookup(p[1..], k);
    assert Lookup(p[1..], k) == if k == "vote_average.gte" then Some(Number(MinVoteAverage)) else Lookup(p[2..], k);
    assert Lookup(p[2..], k) == if k == "vote_count.gte" then Some(Number(MinVoteCount)) else Lookup(p[3..], k);
    assert Lookup(p[3..], k) == if k == "sort_by" then Some(Text(SortBy)) else Lookup(p[4..], k);
    assert p[4..] == [];
  }

  /** The keys of `discoverContent` other than the two date bounds. */
  const OtherDiscoverKeys: seq<string> :=
    ["page", "vote_average.gte", "vote_count.gte", "sort_by", "with_genres", "with_original_language"]

  /** The two bounds of one content type are written under different keys,
      and neither collides with a fixed or another optional key. */
  lemma DateKeysDistinct(ct: ContentType)
    ensures DateKey(ct, true) != DateKey(ct, false)
    ensures DateKey(ct, true) !in OtherDiscoverKeys && DateKey(ct, false) !in OtherDiscoverKeys
  {
    var lo := DateKey(ct, true);
    var hi := DateKey(ct, false);
    assert lo[|lo| - 3] == 'g' && hi[|hi| - 3] == 'l';
    assert |lo| >= 18 && |hi| >= 18 && |lo| != 22 && |hi| != 22;
  }

  /** The record `discoverContent` builds agrees with the reference table on
      every key. */
  lemma DiscoverLookup(f: Filters, page: int, k: string)
    ensures Lookup(DiscoverParams(f, page), k) == DiscoverTable(f, page, k)
  {
    var ct := f.contentType;
    var p0 := FixedParams(page);
    var p1 := AssignIf(p0, |f.genres| > 0, "with_genres", Text(Decimal.JoinIds(f.genres)));
    var p2 := AssignIf(p1, f.yearFrom != "", DateKey(ct, true), Text(f.yearFrom + "-01-01"));
    var p3 := AssignIf(p2, f.yearTo != "", DateKey(ct, false), Text(f.yearTo + "-12-31"));
    AssignIfLookup(p0, |f.genres| > 0, "with_genres", Text(Decimal.JoinIds(f.genres)), k);
    AssignIfLookup(p1, f.yearFrom != "", DateKey(ct, true), Text(f.yearFrom + "-01-01"), k);
    AssignIfLookup(p2, f.yearTo != "", DateKey(ct, false), Text(f.yearTo + "-12-31"), k);
    AssignIfLookup(p3, f.language != "", "with_original_language", Text(f.language), k);
    FixedLookup(page, k);
    DateKeysDistinct(ct);
  }

  lemma TableLowerBound(f: Filters, page: int)
    ensures DiscoverTable(f, page, "primary_release_date.gte") ==
      if f.contentType == Movie && f.yearFrom != "" then Some(Text(f.yearFrom + "-01-01")) else None
    ensures DiscoverTable(f, page, "first_air_date.gte") ==
      if f.contentType != Movie && f.yearFrom != "" then Some(Text(f.yearFrom + "-01-01")) else None
  {
    var movieLo := "primary_release_date.gte";
    var tvLo := "first_air_date.gte";
    assert DateKey(Movie, true) == movieLo && DateKey(Tv, true) == tvLo;
    assert movieLo != DateKey(Movie, false) by { assert movieLo[21] != DateKey(Movie, false)[21]; }
    assert tvLo != DateKey(Tv, false) by { assert tvLo[15] != DateKey(Tv, false)[15]; }
  }

  lemma TableUpperBound(f: Filters, page: int)
    ensures DiscoverTable(f, page, "primary_release_date.lte") ==
      if f.contentType == Movie && f.yearTo != "" then Some(Text(f.yearTo + "-12-31")) else None
    ensures DiscoverTable(f, page, "first_air_date.lte") ==
      if f.contentType != Movie && f.yearTo != "" then Some(Text(f.yearTo + "-12-31")) else None
  {
    var movieHi := "primary_release_date.lte";
    var tvHi := "first_air_date.lte";
    assert DateKey(Movie, false) == movieHi && DateKey(Tv, false) == tvHi;
    assert movieHi != DateKey(Movie, true) by { assert movieHi[21] != DateKey(Movie, true)[21]; }
    assert tvHi != DateKey(Tv, true) by { assert tvHi[15] != DateKey(Tv, true)[15]; }
  }

  /** Year bounds go under the movie keys for movies and under the TV keys
      otherwise: one key per non-empty bound, none for an empty one. */
  lemma DiscoverDateBounds(f: Filters, page: int)
    ensures Lookup(DiscoverParams(f, page), "primary_release_date.gte") ==
      if f.contentType == Movie && f.yearFrom != "" then Some(Text(f.yearFrom + "-01-01")) else None
    ensures Lookup(DiscoverParams(f, page), "first_air_date.gte") ==
      if f.contentType != Movie && f.yearFrom != "" then Some(Text(f.yearFrom + "-01-01")) else None
    ensures Lookup(DiscoverParams(f, page), "primary_release_date.lte") ==
      if f.contentType == Movie && f.yearTo != "" then Some(Text(f.yearTo + "-12-31")) else None
    ensures Lookup(DiscoverParams(f, page), "first_air_date.lte") ==
      if f.contentType != Movie && f.yearTo != "" then Some(Text(f.yearTo + "-12-31")) else None
  {
    TableLowerBound(f, page);
    TableUpperBound(f, page);
    DiscoverLookup(f, page, "primary_release_date.gte");
    DiscoverLookup(f, page, "first_air_date.gte");
    DiscoverLookup(f, page, "primary_release_date.lte");
    DiscoverLookup(f, page, "first_air_date.lte");
  }

  /** The genre parameter, split at commas and read as numbers, gives back
      the selected genre ids in selection order. */
  lemma DiscoverGenresRoundTrip(f: Filters, page: int)
    requires |f.genres| > 0
    ensures Lookup(DiscoverParams(f, page), "with_genres") == Some(Text(Decimal.JoinIds(f.genres)))
    ensures Decimal.ParseIds(Decimal.JoinIds(f.genres)) == Some(f.genres)
  {
    DiscoverLookup(f, page, "with_genres");
    Decimal.ParseJoinIds(f.genres);
  }


  // ---------------------------------------------------------------------
  // Properties of normalisation

  /** A movie record keeps its own non-empty title. */
  lemma NormalizeMovieTitle(item: RawItem, t: string)
    requires item.title == Some(t) && t != ""
    ensures Normalize(item).title == Some(t)
  {
  }

  /** A record without a usable title (a TV show) takes its `name`. */
  lemma NormalizeTvTitle(item: RawItem)
    requires item.title.None? || item.title == Some("")
    ensures Normalize(item).title == item.name
  {
  }

  /** Normalising a page keeps its length, its order and each record's id:
      the ids read off the normalised page are the ids of the raw page. */
  lemma NormalizeKeepsIds(items: seq<RawItem>)
    ensures |NormalizeAll(items)| == |items|
    ensures forall i :: 0 <= i < |items| ==> NormalizeAll(items)[i].id == items[i].id
    ensures forall i :: 0 <= i < |items| ==> NormalizeAll(items)[i].genreIds == items[i].genreIds
  {
  }

  // ---------------------------------------------------------------------
  // Properties of the suggestion

  lemma ZeroFactor(a: int, n: int)
    requires n > 0 && 0 <= a * n < n
    ensures a == 0
  {
  }

  /** The draw `i / n` scales to exactly `i`. */
  lemma ScaleExact(i: nat, n: nat)
    requires i < n
    ensures Draw(i, n).Valid() && Scale(Draw(i, n), n) == i
  {
    var q := i * n / n;
    var m := i * n % n;
    assert i * n == q * n + m;
    assert (i - q) * n == m;
    ZeroFactor(i - q, n);
  }

  /** Every page from 1 to 3 is the suggestion page for some draw. */
  lemma EveryPageReachable(page: int)
    requires 1 <= page <= MaxPages
    ensures Draw(page - 1, MaxPages).Valid()
    ensures SuggestionPage(Draw(page - 1, MaxPages)) == page
  {
    ScaleExact(page - 1, MaxPages);
  }

  /** Every item of a non-empty page is the suggestion for some index draw. */
  lemma EveryResultReachable(slot: KeySlot, f: Filters, pageDraw: Draw, server: Request -> Reply, i: nat)
    requires pageDraw.Valid()
    requires DiscoverContent(slot, f, SuggestionPage(pageDraw), server).Success?
    requires i < |DiscoverContent(slot, f, SuggestionPage(pageDraw), server).value.results|
    ensures Draw(i, |DiscoverContent(slot, f, SuggestionPage(pageDraw), server).value.results|).Valid()
    ensures GetRandomSuggestion(slot, f, pageDraw, Draw(i, |DiscoverContent(slot, f, SuggestionPage(pageDraw), server).value.results|), server)
            == Some(DiscoverContent(slot, f, SuggestionPage(pageDraw), server).value.results[i])
  {
    ScaleExact(i, |DiscoverContent(slot, f, SuggestionPage(pageDraw), server).value.results|);
  }

  /** A rejected request, an HTTP error or a body without results all end in
      no suggestion, whatever the draws. */
  lemma FailedRequestGivesNone(slot: KeySlot, f: Filters, pageDraw: Draw, indexDraw: Draw, server: Request -> Reply)
    requires pageDraw.Valid() && indexDraw.Valid()
    requires DiscoverContent(slot, f, SuggestionPage(pageDraw), server).Failure?
    ensures GetRandomSuggestion(slot, f, pageDraw, indexDraw, server).None?
  {
  }
}
